=== FILE: README.md ===
# Submission lifecycle of the contest platform

The contest front end keeps a submission's status up to date with a poll loop in
its `SubmissionStatus` panel. The data comes from a client-side mock of the
contest API. This project models three things and proves properties of them:

- **The poll loop.** Each run of `pollSubmission` stores the fetched record. It
  then stops on one of five completed statuses, or schedules exactly one more
  poll 2000 ms later. A thrown fetch sets the failure message and stops. The
  model also covers the status colour and icon classification and the
  precedence of the four render branches.
- **The mock API.** `getSubmission` branches on `parseInt(id) % 3` and takes
  bounded random draws. `submitCode` hands out decimal ids in [1, 10000].
  `getContest` and `getLeaderboard` guard on a truthy contest id.
- **The two together.** For an id from `submitCode` with remainder 0 or 1, every
  poll answers Pending or Running, so the loop never stops. For remainder 2 it
  stops at the first drawn verdict.

Modules follow the source:

- `MockApi` is `lib/api.js`.
- `SubmissionStatus` is `components/SubmissionStatus.jsx`.
- `StatusLabels` holds the seven labels of `lib/mockData.js`.
- `Js` holds the JavaScript semantics the mock relies on: `parseInt` with no
  radix, `%` with the dividend's sign, `toString`, and truthiness.
- `Lifecycle` holds the composition lemmas.

A poll is one discrete step. Randomness and the clock are fields of `MockApi.Draws`:
three draws are integers in the range their `Math.floor` gives, the coin of
`lib/api.js` line 57 is a bool, and the clock reading is the string field `now`.
A status is kept as the string the code compares. The `Label` enumeration with `Parse`/`Text` is the
independent reference the contracts are stated against.

The effect in the panel has no cleanup. When the submission id changes, a new
chain of polls starts, and the old chain keeps running and writing into the
shared state. `SubmissionStatus.Component` models exactly that. No cancellation
or generation counter is modelled, because the code has none. A robust
poller would cancel or discard stale polls and would refuse a missing id. This
code does neither: an empty or
non-numeric id is polled like any other and takes the completed branch
(`MockApi.NonNumericIdCompletes`, `MockApi.EmptyIdCompletes`). The model follows the code.

## Model

| member | source | states |
|---|---|---|
| SubmissionStatus.PollStep | New_Shodh/src/components/SubmissionStatus.jsx:13-35 | a settled fetch stops the loop exactly when it threw or carried a verdict label; otherwise exactly one poll is scheduled 2000 ms later with loading untouched; a record replaces the stored submission and leaves the error alone; a throw keeps the record, clears loading and sets "Failed to fetch submission status" |
| SubmissionStatus.CompletedIffVerdict | New_Shodh/src/components/SubmissionStatus.jsx:19-23 | the five-string completion test holds exactly for the verdict labels; Pending, Running and every unknown string are not complete |
| SubmissionStatus.NonVerdictReschedules | New_Shodh/src/components/SubmissionStatus.jsx:28-29 | any status outside the completed set, unknown strings included, stores the record and schedules exactly one poll after 2000 ms |
| SubmissionStatus.LoadingNeverReturns | New_Shodh/src/components/SubmissionStatus.jsx:9-34 | no step turns loading back on once it is off |
| SubmissionStatus.RunChain | New_Shodh/src/components/SubmissionStatus.jsx:12-38 | a chain of polls stops at the first outcome that ends it and at no earlier one; loading stays on exactly when the chain started with loading on and has not stopped; the error becomes the failure message when the chain stopped on a throw and is otherwise unchanged; the stored record is the latest one fetched |
| SubmissionStatus.ChainStopsIffSomeOutcomeEnds | New_Shodh/src/components/SubmissionStatus.jsx:18-34 | a chain stops if and only if one of its outcomes is a throw or a verdict |
| SubmissionStatus.LatestRecordEndsWithLast | New_Shodh/src/components/SubmissionStatus.jsx:15-16 | when the last outcome is a record, that record is the one stored |
| SubmissionStatus.LatestRecordKeepsOne | New_Shodh/src/components/SubmissionStatus.jsx:15-16 | once any record has been fetched, a record stays stored, because a throw never clears it |
| SubmissionStatus.StoppedOnRecordShowsVerdict | New_Shodh/src/components/SubmissionStatus.jsx:19-25 | a chain from mount that stopped on a record has loading off and renders that record's card in green or red, without the running banner |
| SubmissionStatus.ColorByLabel | New_Shodh/src/components/SubmissionStatus.jsx:58-74 | the badge colour is total: green iff Accepted, red iff one of the four rejections, blue iff Running, yellow iff Pending, gray iff the string is not a label |
| SubmissionStatus.IconMatchesColor | New_Shodh/src/components/SubmissionStatus.jsx:40-74 | the icon is drawn in the badge colour, and two statuses share an icon exactly when they share a colour |
| SubmissionStatus.CompletedIsGreenOrRed | New_Shodh/src/components/SubmissionStatus.jsx:19-66 | a status stops polling exactly when it is shown green or red, never blue, yellow or gray |
| SubmissionStatus.Render | New_Shodh/src/components/SubmissionStatus.jsx:76-135 | a truthy error renders the error panel first; otherwise the placeholder iff no record and loading; otherwise the card iff a record is stored, in a colour matching its icon, green/red iff completed, with the running banner iff the status is Running |
| SubmissionStatus.PollStepKeepsConsistent | New_Shodh/src/components/SubmissionStatus.jsx:9-34 | every step keeps the state consistent: loading, a record or an error is present, and an error is the failure message with loading off |
| SubmissionStatus.ConsistentNeverBlank | New_Shodh/src/components/SubmissionStatus.jsx:76-97 | a consistent state never reaches the "return null" branch, and its error panel shows the failure message |
| SubmissionStatus.Mount | New_Shodh/src/components/SubmissionStatus.jsx:7-37 | mounting starts one chain for the id, with no record, loading on and no error, in a consistent state (the base case of the invariant), and renders the placeholder |
| SubmissionStatus.ChangeSubmissionId | New_Shodh/src/components/SubmissionStatus.jsx:12-38 | a new id starts a new chain and cancels none of the existing ones; the state is untouched; the same id re-runs nothing |
| SubmissionStatus.Deliver | New_Shodh/src/components/SubmissionStatus.jsx:13-35 | a settled fetch of any live chain is applied to the shared state, whatever id that chain polls; the chain is dropped exactly when the outcome ends it |
| SubmissionStatus.StaleRecordIsApplied | New_Shodh/src/components/SubmissionStatus.jsx:12-38 | a record fetched for an old id replaces the stored submission even though the panel now has another id |
| SubmissionStatus.ComponentKeepsConsistent | New_Shodh/src/components/SubmissionStatus.jsx:12-38 | id changes and deliveries from any chain keep the state consistent |
| MockApi.GetSubmission | New_Shodh/src/lib/api.js:43-88 | the record echoes the id, reports language "javascript" and the fixed contest, problem and user; remainder 1 gives Running with zero figures; remainder 0 gives Pending or Running with zero figures; otherwise the drawn status, time in [100, 599] and memory in [512, 2559]; score is 30 iff the status is Accepted; Compilation Error is never returned |
| MockApi.PhaseOfNumber | New_Shodh/src/lib/api.js:52-67 | with the sign-keeping `%`, the queued branch is taken iff the parsed id is a multiple of 3, and the running branch iff it is positive with remainder 1; NaN and negative remainders fall to the completed branch |
| MockApi.NonNumericIdCompletes | New_Shodh/src/lib/api.js:52-67 | an id that `parseInt` maps to NaN (no digits after optional white space, a sign and a `0x` prefix), the empty id included, is not refused and takes the completed branch |
| MockApi.EmptyIdCompletes | New_Shodh/src/lib/api.js:52-67 | the empty id parses to NaN and takes the completed branch instead of being refused |
| MockApi.CompletedOutcomesReachable | New_Shodh/src/lib/api.js:48-72 | the completed branch's ranges are tight: every one of the six statuses and every time and memory figure in range is produced by some draw |
| MockApi.SubmitCode | New_Shodh/src/lib/api.js:33-40 | the new id is a canonical decimal string (digits only, no leading zero) that parses back to the draw plus one, which lies in [1, 10000] |
| MockApi.SubmitCodeCoversRange | New_Shodh/src/lib/api.js:37-39 | every id in [1, 10000] can be handed out, and the submitted payload has no influence on the id |
| MockApi.GetContest | New_Shodh/src/lib/api.js:6-18 | returns the contest fixture iff the id is truthy, and fails with "Contest not found" otherwise |
| MockApi.GetLeaderboard | New_Shodh/src/lib/api.js:21-30 | returns the leaderboard fixture for a truthy id and an empty list otherwise |
| MockApi.ContestAndLeaderboardAgree | New_Shodh/src/lib/api.js:14-29 | with a non-empty leaderboard fixture, the contest is found exactly when the leaderboard comes back non-empty |
| Js.JsRem3 | New_Shodh/src/lib/api.js:52 | `n % 3` keeps the dividend's sign, lies strictly between -3 and 3, and differs from n by a multiple of 3 |
| Js.NatToDecimal | New_Shodh/src/lib/api.js:39 | `toString` of a non-negative integer is a non-empty run of decimal digits with no leading zero, whose value is the integer |
| Js.ParseIntOfDecimal | New_Shodh/src/lib/api.js:39-52 | `parseInt` of an id `toString` produced gives back the number |
| Js.ParseIntIgnoresSuffix | New_Shodh/src/lib/api.js:52 | `parseInt` ignores text after the digits, unless that text turns a leading "0" into a hexadecimal prefix |
| Js.DigitPrefixIsLongest | New_Shodh/src/lib/api.js:52 | the digit run `parseInt` reads is a prefix made only of digits, followed by a non-digit or by the end |
| Js.DigitPrefixStopsAtNonDigit | New_Shodh/src/lib/api.js:52 | the digits `parseInt` reads from a digit string followed by a non-digit are exactly that digit string |
| StatusLabels.Parse | New_Shodh/src/lib/mockData.js:112-120 | a recognised string is the text of its label, and an unrecognised string is the text of no label |
| StatusLabels.ParseText | New_Shodh/src/lib/mockData.js:112-120 | distinct labels have distinct texts, so parsing a label's text gives back that label |
| Lifecycle.SubmittedIdPhase | New_Shodh/src/lib/api.js:38-67 | an id from `submitCode` takes the queued, running or completed branch as (draw + 1) mod 3 is 0, 1 or 2 |
| Lifecycle.UnfinishedPhasePollsForever | New_Shodh/src/components/SubmissionStatus.jsx:13-37 | for an id in the queued or running branch, no sequence of polls stops the chain: every outcome is consumed, loading stays on, no error is set, and the badge stays blue or yellow |
| Lifecycle.UnfinishedIdsPollForever | New_Shodh/src/lib/api.js:38-66 | for an id from `submitCode` with remainder 0 or 1, the poll loop never stops, however many polls it makes |
| Lifecycle.CompletedOutcomeEnds | New_Shodh/src/lib/api.js:48-69 | in the completed branch, a poll ends the chain exactly when the status draw is past Pending and Running |
| Lifecycle.CompletedPhaseStopsAtFirstVerdict | New_Shodh/src/components/SubmissionStatus.jsx:18-29 | for an id in the completed branch, the chain stops iff some draw is a verdict, and no earlier draw was one; it stops on a verdict with loading off and a green or red card |
| Lifecycle.CompletedIdsStopAtFirstVerdict | New_Shodh/src/lib/api.js:48-72 | for an id from `submitCode` with remainder 2, polling stops exactly at the first verdict drawn |
| Lifecycle.CompletedIdFirstPoll | New_Shodh/src/components/SubmissionStatus.jsx:37 | for a remainder-2 id, the first poll alone stops the loop unless the mock answers Pending or Running |
| Lifecycle.Id42NeverResolves | New_Shodh/src/lib/api.js:52-60 | the id "42" is a multiple of 3, so its chain never stops |
| Lifecycle.RunningRunningAcceptedScenario | New_Shodh/src/components/SubmissionStatus.jsx:13-35 | a source answering Running, Running, then Accepted with score 30 gets exactly three fetches and ends on the accepted record, with loading off and a green card |
| Lifecycle.FirstFetchThrowsScenario | New_Shodh/src/components/SubmissionStatus.jsx:30-82 | a fetch that throws first ends the chain after one fetch, and the panel shows "Failed to fetch submission status" |
| Lifecycle.SwitchingIdKeepsStaleChain | New_Shodh/src/components/SubmissionStatus.jsx:12-38 | after switching from a queued or running id to another, the old chain is still alive, and its next record, for the old id, is what the panel stores |

## Left out

- Simulated latency (the `setTimeout` delays in `lib/api.js`) and real time: a poll is one discrete step, and the 2000 ms interval is a value in the step's result.
- `Math.random`: three draws are integer fields of `MockApi.Draws` in the range their `Math.floor` gives, and the coin of `lib/api.js` line 57 is the bool field `pendingCoin`; floating point is not modelled.
- `new Date().toISOString()`: the clock reading is the `now` field of `MockApi.Draws`.
- `console.log` and `console.error`: logging only. The thrown error's content is not modelled, because only the fact that the fetch threw affects state.
- JSX markup, Tailwind classes and the lucide icon components: only the status-to-colour and status-to-icon mapping is kept, as enumerations.
- Js.ParseInt: numbers are exact integers. Doubles lose precision above 2^53, so `%` can differ there; every id `submitCode` issues is at most 10000.
- Js.ParseInt: the sign of zero is not kept, because the code only compares `% 3` with 0 and 1, and `-0 === 0`.
- Js.ParseInt: characters are Unicode scalar values rather than UTF-16 code units. Every white-space character `parseInt` skips is a single code unit, so this changes nothing here.
- `getContest`/`getLeaderboard` take a contest id that is a string or absent (`Option<string>`). Truthiness of other JavaScript values (numbers, arrays) is not modelled.
- Fixture contents of `lib/mockData.js`: `GetContest` and `GetLeaderboard` are generic over the fixture they return. Only the seven status labels are taken from that file.
- React unmounting: with no cleanup, chains would keep running after unmount. The model has no unmount event, and it does not model React discarding state updates on an unmounted component.
- React's batching of state updates within one poll: the model applies a poll's updates together.
- The leaderboard's 15-second `setInterval` refresh (`components/Leaderboard.jsx`): timer plumbing that only fetches and replaces.
- The landing page form with `localStorage` and navigation, the Monaco editor wiring of `components/CodeEditor.jsx`, `components/ProblemView.jsx` and `app/layout.jsx`: presentation and browser storage.
- Cancellation of pending polls, discarding of stale results, backoff and a maximum number of attempts: the code has none, and the model does not claim them.

=== FILE: js.dfy ===
/**
 * The few pieces of JavaScript semantics the mock API depends on:
 * `parseInt` with its radix omitted, the `%` operator on integral numbers,
 * the decimal `toString` of a non-negative integer, and the truthiness of an
 * optional string (section 19.2.5 and section 7.1.2 of ECMA-262).
 */
module Js {
  import opened Wrappers

  /** The WhiteSpace and LineTerminator code points that `parseInt` skips before the number. */
  predicate IsStrWhiteSpace(c: char) {
    || c == '\t' || c == '\U{B}' || c == '\U{C}' || c == ' ' || c == '\U{A0}' || c == '\U{FEFF}'
    || c == '\U{1680}' || ('\U{2000}' <= c <= '\U{200A}') || c == '\U{202F}' || c == '\U{205F}'
    || c == '\U{3000}' || c == '\n' || c == '\r' || c == '\U{2028}' || c == '\U{2029}'
  }

  /** How many white-space characters `s` starts with. */
  function LeadingWhiteSpace(s: string): (k: nat)
    ensures k <= |s|
  {
    if |s| > 0 && IsStrWhiteSpace(s[0]) then LeadingWhiteSpace(s[1..]) + 1 else 0
  }

  /** The value of `c` as a digit in any radix up to 36, letters of either case counting from 10. */
  function DigitValue(c: char): (d: Option<nat>)
    ensures d.Some? ==> d.value < 36
  {
    if '0' <= c <= '9' then Some(c as int - '0' as int)
    else if 'a' <= c <= 'z' then Some(c as int - 'a' as int + 10)
    else if 'A' <= c <= 'Z' then Some(c as int - 'A' as int + 10)
    else None
  }

  predicate IsRadixDigit(c: char, radix: nat) {
    DigitValue(c).Some? && DigitValue(c).value < radix
  }

  predicate AllRadixDigits(s: string, radix: nat) {
    forall i :: 0 <= i < |s| ==> IsRadixDigit(s[i], radix)
  }

  /** The longest prefix of `s` made of digits of `radix`. */
  function DigitPrefix(s: string, radix: nat): string {
    if |s| > 0 && IsRadixDigit(s[0], radix) then [s[0]] + DigitPrefix(s[1..], radix) else []
  }

  /** `DigitPrefix` is the longest prefix of digits. */
  lemma {:induction false} DigitPrefixIsLongest(s: string, radix: nat)
    ensures DigitPrefix(s, radix) <= s
    ensures AllRadixDigits(DigitPrefix(s, radix), radix)
    ensures |DigitPrefix(s, radix)| < |s| ==> !IsRadixDigit(s[|DigitPrefix(s, radix)|], radix)
  {
    if |s| > 0 && IsRadixDigit(s[0], radix) {
      DigitPrefixIsLongest(s[1..], radix);
      var z := DigitPrefix(s, radix);
      assert forall i :: 1 <= i < |z| ==> z[i] == DigitPrefix(s[1..], radix)[i - 1];
      assert |z| < |s| ==> s[|z|] == s[1..][|z| - 1];
    }
  }

  /**
   * The number that a string of digits denotes in `radix`, most significant digit
   * first (a character that is not a digit would count as 0; none reaches here).
   */
  function DigitsValue(z: string, radix: nat): nat {
    if |z| == 0 then 0
    else DigitsValue(z[..|z| - 1], radix) * radix + DigitValue(z[|z| - 1]).GetOr(0)
  }

  /**
   * `parseInt(s)` with no radix: skip white space, take an optional sign, switch to
   * radix 16 after a `0x`/`0X` prefix, and read the longest run of digits; no digits
   * at all is NaN, modelled as None. The sign of zero is not kept, since `-0 === 0`.
   */
  function ParseInt(s: string): Option<int> {
    var t := s[LeadingWhiteSpace(s)..];
    var negative := |t| > 0 && t[0] == '-';
    var unsigned := if |t| > 0 && (t[0] == '-' || t[0] == '+') then t[1..] else t;
    var hex := |unsigned| >= 2 && unsigned[0] == '0' && (unsigned[1] == 'x' || unsigned[1] == 'X');
    var radix := if hex then 16 else 10;
    var z := DigitPrefix(if hex then unsigned[2..] else unsigned, radix);
    if |z| == 0 then None
    else
      var magnitude: int := DigitsValue(z, radix);
      Some(if negative then -magnitude else magnitude)
  }

  /** `n % 3` on an integral number: the remainder takes the sign of the dividend. */
  function JsRem3(n: int): (r: int)
    ensures n >= 0 ==> 0 <= r < 3
    ensures n < 0 ==> -3 < r <= 0
    ensures (n - r) % 3 == 0
  {
    if n >= 0 then n % 3 else -((-n) % 3)
  }

  function DecimalDigit(k: nat): (c: char)
    requires k < 10
    ensures IsRadixDigit(c, 10) && DigitValue(c) == Some(k)
  {
    ('0' as int + k) as char
  }

  /** `n.toString()` for a non-negative integer: its decimal digits without leading zeros. */
  function NatToDecimal(n: nat): (s: string)
    ensures |s| > 0 && AllRadixDigits(s, 10)
    ensures DigitsValue(s, 10) == n
    ensures n > 0 ==> s[0] != '0'
    ensures n == 0 ==> s == "0"
  {
    if n < 10 then [DecimalDigit(n)]
    else
      var p := NatToDecimal(n / 10);
      var s := p + [DecimalDigit(n % 10)];
      assert s[..|s| - 1] == p;
      s
  }

  /** A decimal digit is neither white space nor a sign. */
  lemma DigitIsNotSpaceOrSign(c: char)
    requires IsRadixDigit(c, 10)
    ensures !IsStrWhiteSpace(c) && c != '-' && c != '+'
  {
    assert '0' <= c <= '9';
  }

  /** `parseInt` of a string that starts with a decimal digit and is not `0x`/`0X`-prefixed reads its digit run. */
  lemma ParseIntOfDigitStart(s: string)
    requires |s| > 0 && IsRadixDigit(s[0], 10)
    requires |s| >= 2 ==> s[0] != '0' || (s[1] != 'x' && s[1] != 'X')
    ensures ParseInt(s) == Some(DigitsValue(DigitPrefix(s, 10), 10) as int)
  {
    DigitIsNotSpaceOrSign(s[0]);
    assert LeadingWhiteSpace(s) == 0;
  }

  /** `toString` followed by `parseInt` gives back the number. */
  lemma ParseIntOfDecimal(n: nat)
    ensures ParseInt(NatToDecimal(n)) == Some(n)
  {
    var s := NatToDecimal(n);
    ParseIntOfDigitStart(s);
    DigitPrefixOfDigits(s, 10);
  }

  /**
   * `parseInt` stops at the first character that is not a digit, so trailing text is
   * ignored, unless it turns a leading "0" into a hexadecimal prefix.
   */
  lemma ParseIntIgnoresSuffix(n: nat, rest: string)
    requires |rest| > 0 ==> !IsRadixDigit(rest[0], 10)
    requires n == 0 && |rest| > 0 ==> rest[0] != 'x' && rest[0] != 'X'
    ensures ParseInt(NatToDecimal(n) + rest) == Some(n)
  {
    var s := NatToDecimal(n);
    var t := s + rest;
    assert t[0] == s[0];
    assert |s| >= 2 ==> t[1] == s[1];
    assert n == 0 && |t| >= 2 ==> t[1] == rest[0];
    ParseIntOfDigitStart(t);
    DigitPrefixStopsAtNonDigit(s, rest, 10);
  }

  /** The digit run of `s + rest` is `s` itself when `s` is all digits and `rest` does not start with one. */
  lemma {:induction false} DigitPrefixStopsAtNonDigit(s: string, rest: string, radix: nat)
    requires AllRadixDigits(s, radix)
    requires |rest| > 0 ==> !IsRadixDigit(rest[0], radix)
    ensures DigitPrefix(s + rest, radix) == s
  {
    if |s| == 0 {
      assert s + rest == rest;
    } else {
      assert (s + rest)[1..] == s[1..] + rest;
      assert AllRadixDigits(s[1..], radix) by {
        assert forall i :: 0 <= i < |s[1..]| ==> s[1..][i] == s[i + 1];
      }
      DigitPrefixStopsAtNonDigit(s[1..], rest, radix);
      assert s == [s[0]] + s[1..];
    }
  }

  lemma DigitPrefixOfDigits(s: string, radix: nat)
    requires AllRadixDigits(s, radix)
    ensures DigitPrefix(s, radix) == s
  {
    DigitPrefixIsLongest(s, radix);
    var z := DigitPrefix(s, radix);
    assert |z| == |s|;
  }

  /** JavaScript truthiness of a value that is either absent or a string. */
  predicate Truthy(v: Option<string>) {
    v.Some? && v.value != ""
  }
}

=== FILE: lifecycle.dfy ===
/**
 * The poll loop driven by the mock API: which submissions ever finish polling,
 * depending on the id `submitCode` handed out, and the end-to-end runs.
 */
module Lifecycle {
  import opened Wrappers
  import opened Js
  import opened StatusLabels
  import opened MockApi
  import opened SubmissionStatus

  predicate AllInRange(draws: seq<Draws>) {
    forall k :: 0 <= k < |draws| ==> draws[k].InRange()
  }

  /** The outcomes a chain sees when every poll of `id` reaches the mock, the k-th with draws `draws[k]`. */
  function MockOutcomes(id: string, draws: seq<Draws>): (outs: seq<FetchOutcome>)
    requires AllInRange(draws)
  {
    seq(|draws|, k requires 0 <= k < |draws| => Fetched(GetSubmission(id, draws[k])))
  }

  /** The branch `getSubmission` takes for an id from `submitCode` follows the id's remainder mod 3. */
  lemma SubmittedIdPhase(data: SubmissionRequest, idDraw: int)
    requires 0 <= idDraw < 10000
    ensures var p := PhaseOf(SubmitCode(data, idDraw).submissionId);
      && (p == Queued <==> (idDraw + 1) % 3 == 0)
      && (p == Executing <==> (idDraw + 1) % 3 == 1)
      && (p == Completed <==> (idDraw + 1) % 3 == 2)
  {
  }

  /**
   * An id in the queued or executing branch is answered Pending or Running on every
   * poll, so its chain never stops: it consumes every outcome it is given, loading
   * stays on, and the badge stays blue or yellow.
   */
  lemma UnfinishedPhasePollsForever(id: string, draws: seq<Draws>)
    requires PhaseOf(id) != Completed && AllInRange(draws)
    ensures var r := RunChain(InitialView, MockOutcomes(id, draws));
      && !r.stopped && r.fetches == |draws|
      && r.state.isLoading && r.state.error.None?
      && (|draws| == 0 ==> Render(r.state) == FetchingPlaceholder)
      && (|draws| > 0 ==> Render(r.state).Card? && Render(r.state).tone in {Blue, Yellow})
  {
    var outs := MockOutcomes(id, draws);
    forall k | 0 <= k < |outs|
      ensures !EndsChain(outs[k])
    {
      assert outs[k] == Fetched(GetSubmission(id, draws[k]));
    }
    var r := RunChain(InitialView, outs);
    assert !r.stopped;
    if |draws| > 0 {
      LatestRecordEndsWithLast(None, outs, |outs|);
      var last := GetSubmission(id, draws[|draws| - 1]);
      assert outs[|outs| - 1] == Fetched(last);
      assert r.state == ViewState(Some(last), true, None);
      assert Parse(last.status) in {Some(Pending), Some(Running)};
      ColorByLabel(last.status);
    }
  }

  /**
   * The headline property: for an id from `submitCode` whose remainder mod 3 is 0
   * or 1, no sequence of polls ever stops the chain.
   */
  lemma UnfinishedIdsPollForever(data: SubmissionRequest, idDraw: int, draws: seq<Draws>)
    requires 0 <= idDraw < 10000 && (idDraw + 1) % 3 != 2
    requires AllInRange(draws)
    ensures var r := RunChain(InitialView, MockOutcomes(SubmitCode(data, idDraw).submissionId, draws));
      !r.stopped && r.fetches == |draws| && r.state.isLoading
  {
    SubmittedIdPhase(data, idDraw);
    UnfinishedPhasePollsForever(SubmitCode(data, idDraw).submissionId, draws);
  }

  /**
   * An id in the completed branch stops exactly at the first poll whose drawn
   * status is a verdict (list position 2 or later); the record it stops on is shown
   * green or red and loading is off.
   */
  lemma CompletedPhaseStopsAtFirstVerdict(id: string, draws: seq<Draws>)
    requires PhaseOf(id) == Completed && AllInRange(draws)
    ensures var r := RunChain(InitialView, MockOutcomes(id, draws));
      && (r.stopped <==> exists k :: 0 <= k < |draws| && draws[k].statusIndex >= 2)
      && (forall k :: 0 <= k < r.fetches - 1 ==> draws[k].statusIndex < 2)
      && (r.stopped ==> draws[r.fetches - 1].statusIndex >= 2 && !r.state.isLoading)
      && (r.stopped ==> Render(r.state).Card? && Render(r.state).tone in {Green, Red})
  {
    var outs := MockOutcomes(id, draws);
    forall k | 0 <= k < |outs|
      ensures outs[k].Fetched? && (EndsChain(outs[k]) <==> draws[k].statusIndex >= 2)
    {
      CompletedOutcomeEnds(id, draws[k]);
    }
    var r := RunChain(InitialView, outs);
    ChainStopsIffSomeOutcomeEnds(InitialView, outs);
    if r.stopped {
      StoppedOnRecordShowsVerdict(outs);
    }
  }

  /** In the completed branch a poll ends the chain exactly when its status draw is past Pending and Running. */
  lemma CompletedOutcomeEnds(id: string, d: Draws)
    requires PhaseOf(id) == Completed && d.InRange()
    ensures EndsChain(Fetched(GetSubmission(id, d))) <==> d.statusIndex >= 2
  {
    assert GetSubmission(id, d).status == DrawnStatuses[d.statusIndex];
  }

  /** For an id from `submitCode` whose remainder mod 3 is 2, polling stops at the first verdict drawn. */
  lemma CompletedIdsStopAtFirstVerdict(data: SubmissionRequest, idDraw: int, draws: seq<Draws>)
    requires 0 <= idDraw < 10000 && (idDraw + 1) % 3 == 2
    requires AllInRange(draws)
    ensures var r := RunChain(InitialView, MockOutcomes(SubmitCode(data, idDraw).submissionId, draws));
      && (r.stopped <==> exists k :: 0 <= k < |draws| && draws[k].statusIndex >= 2)
      && (forall k :: 0 <= k < r.fetches - 1 ==> draws[k].statusIndex < 2)
      && (r.stopped ==> draws[r.fetches - 1].statusIndex >= 2 && !r.state.isLoading)
  {
    SubmittedIdPhase(data, idDraw);
    CompletedPhaseStopsAtFirstVerdict(SubmitCode(data, idDraw).submissionId, draws);
  }

  /** On its first poll alone, a remainder-2 id stops unless the draw is Pending or Running. */
  lemma CompletedIdFirstPoll(data: SubmissionRequest, idDraw: int, first: Draws)
    requires 0 <= idDraw < 10000 && (idDraw + 1) % 3 == 2 && first.InRange()
    ensures var id := SubmitCode(data, idDraw).submissionId;
      var r := RunChain(InitialView, MockOutcomes(id, [first]));
      r.stopped <==> Parse(GetSubmission(id, first).status) !in {Some(Pending), Some(Running)}
  {
    CompletedIdsStopAtFirstVerdict(data, idDraw, [first]);
  }

  /** The id "42" has remainder 0: its chain never stops, however many polls it makes. */
  lemma Id42NeverResolves(draws: seq<Draws>)
    requires AllInRange(draws)
    ensures !RunChain(InitialView, MockOutcomes("42", draws)).stopped
  {
    assert NatToDecimal(42) == "42";
    ParseIntOfDecimal(42);
    UnfinishedPhasePollsForever("42", draws);
  }

  /** A record with the given status and score, as a source other than the mock might return it. */
  function Scripted(status: string, score: int): Submission {
    Submission("42", "1", "1", "demo_user", "", "javascript", status, score, 0, 0, "")
  }

  /**
   * A source answering Running, Running, then Accepted with score 30: the chain makes
   * exactly three fetches and ends showing the accepted record with loading off.
   */
  lemma RunningRunningAcceptedScenario()
    ensures var outs := [Fetched(Scripted("Running", 0)), Fetched(Scripted("Running", 0)), Fetched(Scripted("Accepted", 30))];
      var r := RunChain(InitialView, outs);
      && r.stopped && r.fetches == 3
      && r.state == ViewState(Some(Scripted("Accepted", 30)), false, None)
      && Render(r.state).Card? && Render(r.state).tone == Green
  {
    var outs := [Fetched(Scripted("Running", 0)), Fetched(Scripted("Running", 0)), Fetched(Scripted("Accepted", 30))];
    assert !EndsChain(outs[0]) && !EndsChain(outs[1]) && EndsChain(outs[2]);
    assert outs[..3] == outs;
  }

  /** A source that throws on the first call: one fetch, then the error panel with the failure message. */
  lemma FirstFetchThrowsScenario(later: seq<FetchOutcome>)
    ensures var r := RunChain(InitialView, [Threw] + later);
      && r.stopped && r.fetches == 1
      && Render(r.state) == ErrorPanel("Failed to fetch submission status")
  {
    assert ([Threw] + later)[0] == Threw;
  }

  /**
   * Polling a queued or running id and then switching the panel to another id cancels nothing:
   * the first chain's next record, for the old id, replaces what is shown, and
   * that chain stays alive.
   */
  lemma SwitchingIdKeepsStaleChain(first: string, second: string, d: Draws)
    requires first != second && PhaseOf(first) != Completed && d.InRange()
    ensures var c := ChangeSubmissionId(Mount(first), second);
      var c' := Deliver(c, 0, Fetched(GetSubmission(first, d)));
      && c'.submissionId == second
      && c'.view.submission.Some? && c'.view.submission.value.id == first
      && c'.chains == [first, second]
  {
  }
}

=== FILE: mock_api.dfy ===
/**
 * The client-side mock of the contest API. Simulated latency is not modelled;
 * each random draw and the clock reading are explicit inputs, already reduced
 * to the integer range the code uses them in.
 */
module MockApi {
  import opened Wrappers
  import opened Js
  import opened StatusLabels

  /** The record `getSubmission` resolves with. */
  datatype Submission = Submission(
    id: string,
    contestId: string,
    problemId: string,
    userId: string,
    code: string,
    language: string,
    status: string,
    score: int,
    executionTime: int,
    memoryUsed: int,
    submittedAt: string)

  /** The payload the code editor submits; the mock does not look at it. */
  datatype SubmissionRequest = SubmissionRequest(
    contestId: Option<string>,
    problemId: string,
    userId: string,
    code: string,
    language: string)

  datatype SubmitResponse = SubmitResponse(submissionId: string)

  /** The list a completed submission's status is drawn from, in the code's order. */
  const DrawnStatuses: seq<string> :=
    [Text(Pending), Text(Running), Text(Accepted), Text(WrongAnswer), Text(TimeLimitExceeded), Text(RuntimeError)]

  const AcceptedScore: int := 30

  /**
   * The inputs one `getSubmission` call takes from its environment:
   * `statusIndex` is `Math.floor(Math.random() * 6)`, `pendingCoin` is
   * `Math.random() > 0.5`, `timeDraw` is `Math.floor(Math.random() * 500)`,
   * `memoryDraw` is `Math.floor(Math.random() * 2048)`, and `now` is the
   * ISO timestamp of the clock.
   */
  datatype Draws = Draws(statusIndex: int, pendingCoin: bool, timeDraw: int, memoryDraw: int, now: string)
  {
    predicate InRange() {
      0 <= statusIndex < |DrawnStatuses| && 0 <= timeDraw < 500 && 0 <= memoryDraw < 2048
    }
  }

  /** The three ways `getSubmission` treats an id, by `parseInt(id) % 3`. */
  datatype Phase = Queued | Executing | Completed

  /**
   * The branch `getSubmission` takes for a parsed id. A NaN parse equals neither 0 nor 1,
   * and a negative id whose remainder is -1 or -2 fails both tests, so both fall to the
   * completed branch; a negative multiple of 3 leaves -0, which equals 0, and is queued.
   */
  function PhaseOfNumber(parsed: Option<int>): (p: Phase)
    ensures p == Queued <==> parsed.Some? && parsed.value % 3 == 0
    ensures p == Executing <==> parsed.Some? && parsed.value > 0 && parsed.value % 3 == 1
  {
    match parsed
    case None => Completed
    case Some(n) =>
      var k := JsRem3(n);
      if k == 0 then Queued else if k == 1 then Executing else Completed
  }

  function PhaseOf(id: string): Phase {
    PhaseOfNumber(ParseInt(id))
  }

  /**
   * An id that `parseInt` maps to NaN (no digits after optional white space, a sign
   * and a `0x` prefix), the empty id included, is not refused: it takes the completed branch.
   */
  lemma NonNumericIdCompletes(id: string)
    requires ParseInt(id).None?
    ensures PhaseOf(id) == Completed
  {
  }

  /** In particular the empty id parses to NaN and is polled in the completed branch. */
  lemma EmptyIdCompletes()
    ensures ParseInt("") == None
    ensures PhaseOf("") == Completed
  {
    assert DigitPrefix("", 10) == [];
    NonNumericIdCompletes("");
  }

  /** `getSubmission(id)`: a record for `id` whose status and figures depend on its phase. */
  function GetSubmission(id: string, draws: Draws): (r: Submission)
    requires draws.InRange()
    ensures r.id == id && r.language == "javascript"
    ensures r.contestId == "1" && r.problemId == "1" && r.userId == "demo_user"
    ensures r.submittedAt == draws.now
    ensures PhaseOf(id) == Executing ==>
      r.status == Text(Running) && r.score == 0 && r.executionTime == 0 && r.memoryUsed == 0
    ensures PhaseOf(id) == Queued ==>
      Parse(r.status) in {Some(Pending), Some(Running)} && r.score == 0 && r.executionTime == 0 && r.memoryUsed == 0
    ensures PhaseOf(id) == Completed ==>
      r.status == DrawnStatuses[draws.statusIndex] && 100 <= r.executionTime <= 599 && 512 <= r.memoryUsed <= 2559
    ensures r.score == (if r.status == Text(Accepted) then AcceptedScore else 0)
    ensures Parse(r.status).Some? && Parse(r.status) != Some(CompilationError)
  {
    var randomStatus := DrawnStatuses[draws.statusIndex];
    match PhaseOf(id)
    case Queued => Record(id, if draws.pendingCoin then "Pending" else "Running", 0, 0, 0, draws.now)
    case Executing => Record(id, "Running", 0, 0, 0, draws.now)
    case Completed =>
      Record(id, randomStatus, if randomStatus == "Accepted" then 30 else 0,
             draws.timeDraw + 100, draws.memoryDraw + 512, draws.now)
  }

  /** The record literal `getSubmission` returns, with its fixed fields filled in. */
  function Record(id: string, status: string, score: int, executionTime: int, memoryUsed: int, now: string): Submission {
    Submission(id, "1", "1", "demo_user", "// Your submitted code here", "javascript",
               status, score, executionTime, memoryUsed, now)
  }

  predicate Produces(r: Submission, status: string, time: int, memory: int) {
    r.status == status && r.executionTime == time && r.memoryUsed == memory
  }

  /**
   * Every outcome the completed branch allows is produced by some draw: each of
   * the six statuses, and every time and memory figure in range.
   */
  lemma CompletedOutcomesReachable(id: string, status: string, time: int, memory: int, now: string)
    requires PhaseOf(id) == Completed
    requires status in DrawnStatuses && 100 <= time <= 599 && 512 <= memory <= 2559
    ensures exists d: Draws :: d.InRange() && Produces(GetSubmission(id, d), status, time, memory)
  {
    var i :| 0 <= i < |DrawnStatuses| && DrawnStatuses[i] == status;
    var d := Draws(i, false, time - 100, memory - 512, now);
    assert GetSubmission(id, d).status == status;
  }

  /** `submitCode(data)`: a fresh id, the decimal string of an integer in [1, 10000]. */
  function SubmitCode(data: SubmissionRequest, idDraw: int): (r: SubmitResponse)
    requires 0 <= idDraw < 10000
    ensures ParseInt(r.submissionId) == Some(idDraw + 1)
    ensures 1 <= idDraw + 1 <= 10000
    ensures |r.submissionId| > 0 && AllRadixDigits(r.submissionId, 10) && r.submissionId[0] != '0'
  {
    ParseIntOfDecimal(idDraw + 1);
    SubmitResponse(NatToDecimal(idDraw + 1))
  }

  /** Every id in [1, 10000] can be handed out, and the payload plays no part in which one. */
  lemma SubmitCodeCoversRange(data: SubmissionRequest, other: SubmissionRequest, n: int)
    requires 1 <= n <= 10000
    ensures exists d :: 0 <= d < 10000 && ParseInt(SubmitCode(data, d).submissionId) == Some(n)
    ensures forall d :: 0 <= d < 10000 ==> SubmitCode(data, d) == SubmitCode(other, d)
  {
    assert ParseInt(SubmitCode(data, n - 1).submissionId) == Some(n);
  }

  /** `getContest(contestId)`: the contest fixture for any truthy id, "Contest not found" otherwise. */
  function GetContest<C>(contestId: Option<string>, fixture: C): (r: Result<C, string>)
    ensures r.Success? <==> Truthy(contestId)
    ensures r.Success? ==> r.value == fixture
    ensures r.Failure? ==> r.error == "Contest not found"
  {
    if Truthy(contestId) then Success(fixture) else Failure("Contest not found")
  }

  /** `getLeaderboard(contestId)`: the leaderboard fixture for any truthy id, an empty list otherwise. */
  function GetLeaderboard<E>(contestId: Option<string>, fixture: seq<E>): (r: seq<E>)
    ensures Truthy(contestId) ==> r == fixture
    ensures !Truthy(contestId) ==> r == []
  {
    if Truthy(contestId) then fixture else []
  }

  /**
   * The two lookups apply the same guard: with a non-empty leaderboard fixture,
   * the contest is found exactly when the leaderboard comes back non-empty.
   */
  lemma ContestAndLeaderboardAgree<C, E>(contestId: Option<string>, contest: C, board: seq<E>)
    requires |board| > 0
    ensures GetContest(contestId, contest).Success? <==> |GetLeaderboard(contestId, board)| > 0
  {
  }
}

=== FILE: status_labels.dfy ===
/** The seven submission status labels the platform uses, as an enumeration with its display text. */
module StatusLabels {
  import opened Wrappers

  datatype Label =
    | Pending
    | Running
    | Accepted
    | WrongAnswer
    | TimeLimitExceeded
    | RuntimeError
    | CompilationError

  /** The string a label is carried as in a submission record. */
  function Text(l: Label): string {
    match l
    case Pending => "Pending"
    case Running => "Running"
    case Accepted => "Accepted"
    case WrongAnswer => "Wrong Answer"
    case TimeLimitExceeded => "Time Limit Exceeded"
    case RuntimeError => "Runtime Error"
    case CompilationError => "Compilation Error"
  }

  /** Recognises a status string; any other string is not one of the seven labels. */
  function Parse(s: string): (r: Option<Label>)
    ensures r.Some? ==> Text(r.value) == s
    ensures r.None? ==> forall l: Label :: Text(l) != s
  {
    if s == "Pending" then Some(Pending)
    else if s == "Running" then Some(Running)
    else if s == "Accepted" then Some(Accepted)
    else if s == "Wrong Answer" then Some(WrongAnswer)
    else if s == "Time Limit Exceeded" then Some(TimeLimitExceeded)
    else if s == "Runtime Error" then Some(RuntimeError)
    else if s == "Compilation Error" then Some(CompilationError)
    else None
  }

  /** Distinct labels have distinct texts, so `Parse` undoes `Text`. */
  lemma ParseText(l: Label)
    ensures Parse(Text(l)) == Some(l)
  {
  }

  /** A verdict: judging is over once a submission carries one of these. */
  predicate IsVerdict(l: Label) {
    !(l.Pending? || l.Running?)
  }

  /** The four verdicts that reject a submission. */
  predicate IsRejection(l: Label) {
    IsVerdict(l) && !l.Accepted?
  }
}

=== FILE: submission_status.dfy ===
/**
 * The submission status panel: the poll loop its effect runs, the colour and icon
 * it gives each status, and which of its four views it renders.
 */
module SubmissionStatus {
  import opened Wrappers
  import opened Js
  import opened StatusLabels
  import opened MockApi

  const PollIntervalMs: nat := 2000
  const FetchFailedMessage: string := "Failed to fetch submission status"

  // ---------------------------------------------------------------------------
  // Classification of status strings
  // ---------------------------------------------------------------------------

  /** The completion test of the poll loop: equality with one of five literal strings. */
  predicate IsCompleted(status: string) {
    || status == "Accepted"
    || status == "Wrong Answer"
    || status == "Time Limit Exceeded"
    || status == "Runtime Error"
    || status == "Compilation Error"
  }

  /** The five colour families of the status badge. */
  datatype Tone = Green | Red | Blue | Yellow | Gray

  /** The badge colour `getStatusColor` picks for a status; unknown strings fall to gray. */
  function StatusColor(status: string): Tone {
    if status == "Accepted" then Green
    else if status == "Wrong Answer" || status == "Time Limit Exceeded"
         || status == "Runtime Error" || status == "Compilation Error" then Red
    else if status == "Running" then Blue
    else if status == "Pending" then Yellow
    else Gray
  }

  /** The icons `getStatusIcon` draws; the clock comes in two colours. */
  datatype Icon = CheckCircle | XCircle | SpinningLoader | Clock(tone: Tone)

  /** The icon `getStatusIcon` picks for a status. */
  function StatusIcon(status: string): Icon {
    if status == "Accepted" then CheckCircle
    else if status == "Wrong Answer" || status == "Time Limit Exceeded"
         || status == "Runtime Error" || status == "Compilation Error" then XCircle
    else if status == "Running" then SpinningLoader
    else if status == "Pending" then Clock(Yellow)
    else Clock(Gray)
  }

  /** The colour an icon is drawn in. */
  function IconTone(icon: Icon): Tone {
    match icon
    case CheckCircle => Green
    case XCircle => Red
    case SpinningLoader => Blue
    case Clock(t) => t
  }

  /** The completion test agrees with the verdict labels: unknown strings are never complete. */
  lemma CompletedIffVerdict(status: string)
    ensures IsCompleted(status) <==> Parse(status).Some? && IsVerdict(Parse(status).value)
  {
  }

  /**
   * The badge colour is total and decided by the label alone: green for Accepted,
   * red for the four rejections, blue for Running, yellow for Pending, gray for any
   * string that is not a label.
   */
  lemma ColorByLabel(status: string)
    ensures StatusColor(status) == Green <==> Parse(status) == Some(Accepted)
    ensures StatusColor(status) == Red <==> Parse(status).Some? && IsRejection(Parse(status).value)
    ensures StatusColor(status) == Blue <==> Parse(status) == Some(Running)
    ensures StatusColor(status) == Yellow <==> Parse(status) == Some(Pending)
    ensures StatusColor(status) == Gray <==> Parse(status).None?
  {
  }

  /**
   * The icon uses the same partition as the badge colour and is drawn in that colour:
   * two statuses share an icon exactly when they share a colour.
   */
  lemma IconMatchesColor(a: string, b: string)
    ensures IconTone(StatusIcon(a)) == StatusColor(a)
    ensures StatusIcon(a) == StatusIcon(b) <==> StatusColor(a) == StatusColor(b)
  {
  }

  /** A status that ends polling is always shown green or red, never blue, yellow or gray. */
  lemma CompletedIsGreenOrRed(status: string)
    ensures IsCompleted(status) <==> StatusColor(status) in {Green, Red}
  {
  }

  // ---------------------------------------------------------------------------
  // The poll loop
  // ---------------------------------------------------------------------------

  /** The component's three state hooks. */
  datatype ViewState = ViewState(submission: Option<Submission>, isLoading: bool, error: Option<string>)

  /** The state the component mounts with. */
  const InitialView: ViewState := ViewState(None, true, None)

  /** What one awaited `getSubmission` call produced: a record, or a thrown error. */
  datatype FetchOutcome = Fetched(record: Submission) | Threw

  /** What the poll does after updating the state. */
  datatype Next = Stop | PollAfter(delayMs: nat)

  datatype StepResult = StepResult(state: ViewState, next: Next)

  /** An outcome after which the loop schedules nothing: an error, or a verdict label. */
  predicate EndsChain(outcome: FetchOutcome) {
    outcome.Threw? || (Parse(outcome.record.status).Some? && IsVerdict(Parse(outcome.record.status).value))
  }

  /**
   * One run of `pollSubmission` once its fetch has settled: store the record, then
   * stop on a completed status or schedule one more poll after 2000 ms; a thrown
   * error records the failure message, clears loading and schedules nothing.
   */
  function PollStep(s: ViewState, outcome: FetchOutcome): (r: StepResult)
    ensures r.next == Stop <==> EndsChain(outcome)
    ensures r.next.PollAfter? ==> r.next.delayMs == PollIntervalMs && r.state.isLoading == s.isLoading
    ensures outcome.Fetched? ==> r.state.submission == Some(outcome.record) && r.state.error == s.error
    ensures outcome.Fetched? && r.next == Stop ==> !r.state.isLoading
    ensures outcome.Threw? ==>
      r.state == ViewState(s.submission, false, Some(FetchFailedMessage))
  {
    CompletedIffVerdict(if outcome.Fetched? then outcome.record.status else "");
    match outcome
    case Threw =>
      StepResult(s.(error := Some(FetchFailedMessage), isLoading := false), Stop)
    case Fetched(data) =>
      var s' := s.(submission := Some(data));
      if IsCompleted(data.status) then StepResult(s'.(isLoading := false), Stop)
      else StepResult(s', PollAfter(PollIntervalMs))
  }

  /** How a poll chain fed a sequence of fetch outcomes ended up. */
  datatype ChainRun = ChainRun(state: ViewState, fetches: nat, stopped: bool)

  /**
   * Feeds `outcomes` to one chain of polls until it stops or the outcomes run out.
   * The chain stops at the first outcome that ends it and at no earlier one; loading
   * stays on exactly when the chain started with loading on and has not stopped; the
   * error becomes the failure message when the chain stopped on a throw and is otherwise
   * unchanged; and the stored record is always the latest one fetched.
   */
  function RunChain(s: ViewState, outcomes: seq<FetchOutcome>): (r: ChainRun)
    ensures r.fetches <= |outcomes|
    ensures !r.stopped ==> r.fetches == |outcomes|
    ensures r.stopped ==> 0 < r.fetches <= |outcomes| && EndsChain(outcomes[r.fetches - 1])
    ensures forall k :: 0 <= k < |outcomes| && k < r.fetches - (if r.stopped then 1 else 0) ==> !EndsChain(outcomes[k])
    ensures r.state.isLoading <==> s.isLoading && !r.stopped
    ensures r.state.error ==
      (if r.stopped && 0 < r.fetches <= |outcomes| && outcomes[r.fetches - 1].Threw? then Some(FetchFailedMessage) else s.error)
    ensures r.state.submission == LatestRecord(s.submission, outcomes, r.fetches)
    decreases |outcomes|
  {
    if |outcomes| == 0 then ChainRun(s, 0, false)
    else
      var step := PollStep(s, outcomes[0]);
      if step.next == Stop then
        ChainRun(step.state, 1, true)
      else
        var rest := RunChain(step.state, outcomes[1..]);
        ChainRun(rest.state, rest.fetches + 1, rest.stopped)
  }

  /** The record of the last successful fetch among the first `count` outcomes, or `initial` when there is none. */
  function LatestRecord(initial: Option<Submission>, outcomes: seq<FetchOutcome>, count: nat): Option<Submission>
    decreases count
  {
    if count == 0 || |outcomes| == 0 then initial
    else
      match outcomes[0]
      case Fetched(data) => LatestRecord(Some(data), outcomes[1..], count - 1)
      case Threw => LatestRecord(initial, outcomes[1..], count - 1)
  }

  /** A chain stops exactly when some outcome it is given ends it. */
  lemma ChainStopsIffSomeOutcomeEnds(s: ViewState, outcomes: seq<FetchOutcome>)
    ensures RunChain(s, outcomes).stopped <==> exists k :: 0 <= k < |outcomes| && EndsChain(outcomes[k])
  {
    var r := RunChain(s, outcomes);
    if r.stopped {
      assert EndsChain(outcomes[r.fetches - 1]);
    }
  }

  /**
   * A chain from the initial state that stopped on a record ends with loading off and
   * the card for that record, in green or red.
   */
  lemma StoppedOnRecordShowsVerdict(outcomes: seq<FetchOutcome>)
    requires RunChain(InitialView, outcomes).stopped
    requires outcomes[RunChain(InitialView, outcomes).fetches - 1].Fetched?
    ensures var r := RunChain(InitialView, outcomes);
      && !r.state.isLoading
      && Render(r.state).Card?
      && Render(r.state).record == outcomes[r.fetches - 1].record
      && Render(r.state).tone in {Green, Red}
      && !Render(r.state).runningBanner
  {
    var r := RunChain(InitialView, outcomes);
    var last := outcomes[r.fetches - 1].record;
    LatestRecordEndsWithLast(None, outcomes, r.fetches);
    assert r.state == ViewState(Some(last), false, None);
    CompletedIffVerdict(last.status);
    CompletedIsGreenOrRed(last.status);
  }

  /** When the last outcome read was a record, that record is the one stored. */
  lemma {:induction false} LatestRecordEndsWithLast(initial: Option<Submission>, outcomes: seq<FetchOutcome>, count: nat)
    requires 0 < count <= |outcomes| && outcomes[count - 1].Fetched?
    ensures LatestRecord(initial, outcomes, count) == Some(outcomes[count - 1].record)
    decreases count
  {
    if count > 1 {
      var next := if outcomes[0].Fetched? then Some(outcomes[0].record) else initial;
      assert outcomes[1..][count - 2] == outcomes[count - 1];
      LatestRecordEndsWithLast(next, outcomes[1..], count - 1);
    }
  }

  /** Once a record has been fetched, one stays stored whatever the later outcomes: a throw never clears it. */
  lemma {:induction false} LatestRecordKeepsOne(initial: Option<Submission>, outcomes: seq<FetchOutcome>, count: nat)
    requires initial.Some? || (exists k :: 0 <= k < count && k < |outcomes| && outcomes[k].Fetched?)
    ensures LatestRecord(initial, outcomes, count).Some?
    decreases count
  {
    if count > 0 && |outcomes| > 0 {
      var next := if outcomes[0].Fetched? then Some(outcomes[0].record) else initial;
      if next.None? {
        var k :| 0 <= k < count && k < |outcomes| && outcomes[k].Fetched?;
        assert outcomes[1..][k - 1] == outcomes[k];
      }
      LatestRecordKeepsOne(next, outcomes[1..], count - 1);
    }
  }

  /** Loading is cleared only when polling ends, so it never becomes true again. */
  lemma LoadingNeverReturns(s: ViewState, outcome: FetchOutcome)
    ensures !s.isLoading ==> !PollStep(s, outcome).state.isLoading
    ensures PollStep(s, outcome).state.isLoading ==> s.isLoading
  {
  }

  /** A status that is not a verdict, including any unknown string, schedules exactly one poll 2000 ms later. */
  lemma NonVerdictReschedules(s: ViewState, record: Submission)
    requires !IsCompleted(record.status)
    ensures PollStep(s, Fetched(record)) == StepResult(s.(submission := Some(record)), PollAfter(2000))
  {
  }

  // ---------------------------------------------------------------------------
  // Rendering
  // ---------------------------------------------------------------------------

  /** The four things the component can render. */
  datatype Screen =
    | ErrorPanel(message: string)
    | FetchingPlaceholder
    | Blank
    | Card(record: Submission, tone: Tone, icon: Icon, runningBanner: bool)

  /**
   * The render branches in the code's order: an error wins, then the placeholder
   * while nothing has arrived and loading is on, then nothing while nothing has
   * arrived, and otherwise the card for the stored record.
   */
  function Render(v: ViewState): (r: Screen)
    ensures r.ErrorPanel? <==> Truthy(v.error)
    ensures r.FetchingPlaceholder? <==> !Truthy(v.error) && v.submission.None? && v.isLoading
    ensures r.Card? <==> !Truthy(v.error) && v.submission.Some?
    ensures r.Card? ==>
      && r.record == v.submission.value
      && IconTone(r.icon) == r.tone
      && (r.tone in {Green, Red} <==> IsCompleted(r.record.status))
      && (r.runningBanner <==> Parse(r.record.status) == Some(Running))
  {
    if Truthy(v.error) then ErrorPanel(v.error.value)
    else if v.submission.None? && v.isLoading then FetchingPlaceholder
    else if v.submission.None? then Blank
    else
      var data := v.submission.value;
      IconMatchesColor(data.status, data.status);
      CompletedIsGreenOrRed(data.status);
      Card(data, StatusColor(data.status), StatusIcon(data.status), data.status == "Running")
  }

  /**
   * The states the poll loop can reach: something is always on show (loading, a
   * record or an error), and an error is always the fetch-failure message with
   * loading off.
   */
  predicate Consistent(v: ViewState) {
    && (v.isLoading || v.submission.Some? || v.error.Some?)
    && (v.error.Some? ==> v.error.value == FetchFailedMessage && !v.isLoading)
  }

  /** Every poll step keeps the view consistent. */
  lemma PollStepKeepsConsistent(v: ViewState, outcome: FetchOutcome)
    requires Consistent(v)
    ensures Consistent(PollStep(v, outcome).state)
  {
  }

  /**
   * A consistent view never renders blank. Mount starts consistent and every event
   * keeps it so (ComponentKeepsConsistent), so the "return null" branch is dead.
   */
  lemma ConsistentNeverBlank(v: ViewState)
    requires Consistent(v)
    ensures !Render(v).Blank?
    ensures Render(v).ErrorPanel? ==> Render(v).message == FetchFailedMessage
  {
  }

  // ---------------------------------------------------------------------------
  // The component across changes of submission id
  // ---------------------------------------------------------------------------

  /**
   * A mounted panel: its state, the id it was last given, and the id each live
   * poll chain is polling. The effect has no cleanup, so a chain is only ever
   * removed by stopping itself.
   */
  datatype Component = Component(view: ViewState, submissionId: string, chains: seq<string>)

  /** Mounting runs the effect once: one chain for the given id. */
  function Mount(id: string): (c: Component)
    ensures c.view == InitialView && c.chains == [id] && c.submissionId == id
    ensures Consistent(c.view)
    ensures Render(c.view) == FetchingPlaceholder
  {
    Component(InitialView, id, [id])
  }

  /**
   * A new `submissionId` prop re-runs the effect: a new chain starts and every
   * existing chain keeps going; the state hooks keep their values.
   */
  function ChangeSubmissionId(c: Component, id: string): (c': Component)
    ensures c'.view == c.view && c'.submissionId == id
    ensures id != c.submissionId ==> c'.chains == c.chains + [id]
    ensures id == c.submissionId ==> c' == c
  {
    if id == c.submissionId then c
    else Component(c.view, id, c.chains + [id])
  }

  /**
   * The fetch of chain `i` settles with `outcome`. The step is applied to the shared
   * state whichever id the chain polls; the chain survives exactly when it reschedules.
   */
  function Deliver(c: Component, i: nat, outcome: FetchOutcome): (c': Component)
    requires i < |c.chains|
    ensures c'.view == PollStep(c.view, outcome).state
    ensures c'.submissionId == c.submissionId
    ensures EndsChain(outcome) ==> c'.chains == c.chains[..i] + c.chains[i + 1..]
    ensures !EndsChain(outcome) ==> c'.chains == c.chains
  {
    var step := PollStep(c.view, outcome);
    c.(view := step.state, chains := if step.next == Stop then c.chains[..i] + c.chains[i + 1..] else c.chains)
  }

  /**
   * No stale result is discarded: a record fetched by a chain polling an old id
   * replaces the stored submission even though the panel now shows another id.
   */
  lemma StaleRecordIsApplied(c: Component, i: nat, record: Submission)
    requires i < |c.chains| && c.chains[i] != c.submissionId && record.id == c.chains[i]
    ensures var c' := Deliver(c, i, Fetched(record));
      c'.view.submission == Some(record) && c'.view.submission.value.id != c'.submissionId
  {
  }

  /** Consistency holds across every event the component can see. */
  lemma ComponentKeepsConsistent(c: Component, id: string, i: nat, outcome: FetchOutcome)
    requires Consistent(c.view)
    ensures Consistent(ChangeSubmissionId(c, id).view)
    ensures i < |c.chains| ==> Consistent(Deliver(c, i, outcome).view)
  {
    if i < |c.chains| {
      PollStepKeepsConsistent(c.view, outcome);
    }
  }
}

=== FILE: wrappers.dfy ===
/** Optional values and value-or-error results shared by the model. */
module Wrappers {

  /** A value that may be absent: JavaScript's `null`/`undefined` or a NaN parse. */
  datatype Option<+T> = None | Some(value: T) {

    /** The value, or `default` when there is none. */
    function GetOr(default: T): T {
      match this
      case Some(v) => v
      case None => default
    }
  }

  /** The outcome of an operation that either returns a value or throws an error message. */
  datatype Result<+R, +E> = Success(value: R) | Failure(error: E)
}
